=== FILE: README.md ===
# PassBot-789 vault engine in Dafny

PassBot-789 is a command-line password vault. Two near-identical programs
exist. `app.js` keeps a vault in a two-line text file `<name>.csv`.
`appSqlCopy.js` keeps it as a row of the `encrypted_data` table of a MySQL
database named after the vault. Under the prompts both run the same small
engine:

- a session made of module-level variables: `masterPassword`, `currentIV`,
  `currentDB`, `entries` and `imageHash`;
- a key that is the SHA-256 of a key-material string. That string is the
  master password in `app.js`, and the password followed by an image
  fingerprint in `appSqlCopy.js`;
- AES-256-CBC encryption of `JSON.stringify(entries)` under that key and a
  16-byte IV;
- a stored record made of the IV's hex text and the ciphertext's hex text;
- transitions: create (seeds one `test` entry), open, save, add an entry,
  delete an entry.

This project models that engine as immutable datatypes and pure functions.

| file | module | models |
|---|---|---|
| results.dfy | `Results` | `Option`, `Result` and the error cases |
| hex.dfy | `Hex` | bytes; Node's `toString("hex")` and lenient `Buffer.from(s, "hex")` |
| text.dfy | `Text` | JavaScript `trim` and `split` on one character |
| records.dfy | `Records` | the stored record, the CSV layout and its parser |
| entries.dfy | `Entries` | entries, splice, masked listing, copy selection, random password |
| cipher.dfy | `Cipher` | abstract primitives, key derivation, encrypt/decrypt/load, image hash |
| vault.dfy | `Vault` | the session record, transition results, edits |
| csv_app.dfy | `CsvApp` | the transitions of `app.js` |
| sql_app.dfy | `SqlApp` | the transitions of `appSqlCopy.js` |
| witness.dfy | `Witness` | a toy instance of the primitives that meets `Lawful` |

SHA-256 (FIPS 180-4) and AES-256-CBC with PKCS#7 padding (NIST SP 800-38A
section 6.2, RFC 5652 section 6.3) are not implemented. Neither are
`JSON.stringify` and `JSON.parse`. They are the fields of a `Primitives`
value. Each property that needs them assumes only the predicate `Lawful`:

- both digests are 32 bytes long;
- deciphering what was enciphered, under a 32-byte key and a 16-byte IV,
  gives the plaintext back;
- parsing the JSON of an entry list gives the list back.

`Witness.LawfulSatisfiable` exhibits primitives that meet all three laws
at once, so no property proved under `Lawful` holds only because the
assumption is impossible.

Hex encoding and decoding of ASCII text, the CSV text and the IV checks
of `createCipheriv` are modelled in full. The odd-length check that
`decipher.update` applies to hex ciphertext counts UTF-16 code units, as
JavaScript's `length` does (`Text.Utf16Length`), not Dafny characters.

Random bytes are parameters. `drawn` is the IV `crypto.randomBytes(16)`
returned. `Generated(bytes)` holds the bytes the password generator drew.
File contents are parameters too: the CSV text, and the image bytes, which
are `None` when `fs.existsSync` says the path is missing. The SQL table is
a parameter: `seq<Record>` in insertion (primary-key) order, or `None` when
the database cannot be selected. `LIMIT 1` without `ORDER BY` is taken to
mean the first row in that order.

Behaviours worth knowing:

- Saves reuse the session IV. Only create draws a fresh one.
- The vault key is one unsalted SHA-256 of the key material.
- A missing image file yields a fixed message string that is then used as
  the fingerprint. No error is raised.
- The only password generator maps 16 random bytes onto a 76-character
  set.

## Model

| member | source | states |
|---|---|---|
| Hex.Encode | app.js:33 | hex text of bytes has two lower-case hex digits per byte |
| Hex.Digit | app.js:33 | each nibble's digit reads back as that nibble |
| Hex.DecodeEncode | app.js:46 | `Buffer.from(hex, "hex")` reads back exactly the bytes `toString("hex")` wrote |
| Hex.Decode | app.js:83 | `Buffer.from(s, "hex")` never yields more than one byte per two characters of the text |
| Hex.DecodeReads | app.js:83 | byte k is the value of the hex-digit pair at position 2k, and decoding stops exactly at the first pair that is not two hex digits |
| Hex.DecodeLength | app.js:83 | text made only of hex digits decodes one byte per digit pair |
| Text.TrimStart | app.js:219 | leading trim keeps a suffix, drops only white space, and leaves no leading white space |
| Text.TrimEnd | app.js:219 | trailing trim keeps a prefix, drops only white space, and leaves no trailing white space |
| Text.Trim | app.js:219 | `trim` leaves neither end white space, and yields the empty string exactly when the text is all white space |
| Text.TrimIsInfix | app.js:219 | the trimmed text is the stretch of the text that starts where the leading white space ends |
| Text.TrimDropsOnlySpace | app.js:219 | everything `trim` drops before and after that stretch is white space |
| Text.Split | app.js:219 | split yields at least one piece; no piece holds the separator or a character foreign to the text |
| Text.JoinSplit | app.js:219 | joining the split pieces with the separator restores the text |
| Text.SplitAtFirst | app.js:228 | a separator after a separator-free head cuts the text exactly there |
| Text.SplitMany | app.js:221 | text splits into two or more pieces exactly when it holds the separator |
| Text.Utf16Length | app.js:85 | JavaScript's `length` lies between the character count and twice it, and equals the character count on text inside the Basic Multilingual Plane |
| Text.Utf16LengthConcat | app.js:85 | the length of a concatenation is the sum of the lengths |
| Text.Utf16LengthChar | app.js:85 | one character counts 1 inside the Basic Multilingual Plane and 2 outside it; with the concatenation law this fixes the length of every text |
| Text.AstralCountsTwice | app.js:85 | two hex digits followed by an emoji have JavaScript length 4 although they are 3 characters |
| Records.Parse | app.js:218-228 | reading a file fails with "Invalid CSV format" exactly when the trimmed text is one line; the IV field holds no comma or newline |
| Records.FormatNeverRejected | app.js:219-225 | any text save writes, whatever its fields hold, keeps its newline after `trim`, so open never rejects it as "Invalid CSV format" |
| Records.ParseFormat | app.js:218-228 | reading the text written at app.js:65-67 and app.js:283 gives back exactly that IV and ciphertext, when neither holds a comma or newline and the ciphertext does not end in white space |
| Records.OneLineRejected | app.js:219-225 | text with no newline is rejected, so no entries load |
| Entries.RemoveAt | app.js:434 | splice removes exactly the chosen entry; the entries before keep their places, those after shift down one; the multiset loses only that entry |
| Entries.RemoveAtThenInsert | app.js:434 | re-inserting the removed entry at its index restores the list |
| Entries.Display | app.js:298-303 | the listing has one row per entry, 1-based index, same title and username, password shown as `*****` |
| Entries.AcceptsCopyIndex | app.js:321-324 | the copy prompt accepts a number exactly when it lies from 1 up to, but excluding, the entry count plus one, since `parseInt` truncates |
| Entries.CopySelection | app.js:328-330 | an accepted number selects an entry exactly when it is whole, and then selects the entry the listing shows with that index |
| Entries.CopySelectsShownEntry | app.js:321-328 | the copy prompt accepts integer k exactly when 1 <= k <= length, and then selects `entries[k-1]`, the entry listed with index k |
| Entries.FractionSelectsNothing | app.js:321-330 | an accepted number with a fractional part indexes nothing, so no password is copied |
| Entries.GeneratedPassword | app.js:385-397 | the generated password has one character per byte, character i being `charset[bytes[i] % 76]` |
| Entries.RandomPassword | app.js:391-395 | the generator loop yields 16 characters, the i-th being `charset[bytes[i] % 76]`, all within the charset: exactly `GeneratedPassword` of the bytes |
| Entries.NewPassword | app.js:381-400 | the stored password is the typed one, or, when generation was chosen, 16 charset characters, the i-th being `charset[bytes[i] % 76]` |
| Cipher.DigestHex | app.js:23 | the hex digest of the key material is 64 hex digits |
| Cipher.Key | app.js:23-28 | the AES key is the raw SHA-256 of the key material, 32 bytes |
| Cipher.IvHexReadsBack | app.js:60-67 | for a Buffer IV and a string IV alike, the hex text written reads back as the IV bytes used to encrypt |
| Cipher.IvValue.AsBuffer | app.js:46 | `Buffer.from(currentIV, "hex")` copies a Buffer IV and leniently decodes a string IV, one byte per digit pair of an all-hex string |
| Cipher.IvValue.AsHex | app.js:65-67 | `currentIV.toString("hex")` returns a string IV unchanged and encodes a Buffer IV as lower-case hex that decodes back to its bytes |
| Cipher.Decrypt | app.js:78-88 | decryption fails with an IV-length error when the IV text does not decode to 16 bytes, fails when the ciphertext field is missing, and with a usable IV fails with the odd-length error when the ciphertext's JavaScript length is odd; with a usable IV and an even-length ciphertext it succeeds exactly when deciphering under the material's key succeeds |
| Cipher.Encrypt | app.js:22-34 | `encrypt` makes the drawn bytes the session IV; it returns their 32-digit hex text and hex ciphertext that decrypts under the same material back to the plaintext |
| Cipher.EncryptExisting | app.js:37-55 | encrypting under a given IV succeeds exactly when that IV reads as 16 bytes; the result is hex and decrypts under the same material and the IV's hex text |
| Cipher.Load | app.js:235-238 | loading succeeds exactly when decryption succeeds and `JSON.parse` accepts the decrypted text; the loaded list is what parse returns; a parse failure after a good decryption is the JSON error |
| Cipher.LoadSealed | app.js:236-238 | loading ciphertext that decrypts to the JSON of a list yields that list |
| Cipher.HashImage | appSqlCopy.js:158-162 | the image hash is 64 hex digits that decode to the SHA-256 of the file bytes |
| Cipher.PasswordHash | app.js:348-351 | `createPasswordHash` is 64 hex digits whose bytes are the key for password plus image hash |
| Vault.Reset | app.js:165-168 | create and open clear password, IV, database name and entries, and keep the image hash |
| Vault.IvUsableCases | app.js:24-25 | a drawn 16-byte IV can be saved; so can the IV text read back from a saved record |
| CsvApp.CreateAsWritten | app.js:164-195 | create as written always writes a vault file holding only the test entry, encrypted under the typed password with the drawn IV, whatever the inputs |
| CsvApp.Create | app.js:184-187 | corrected create fails, writing nothing, exactly when password or name is empty; otherwise it seeds `[test]` under the password and the drawn IV |
| CsvApp.CreateAgrees | app.js:182-194 | with both inputs present, the corrected create is the program's create |
| CsvApp.EmptyPasswordStillCreates | app.js:184-194 | as written, an empty password yields a vault that opens with the empty password, where the corrected create refuses |
| CsvApp.Save | app.js:58-75 | save leaves the session unchanged and succeeds exactly when the session IV reads as 16 bytes; it writes that same IV text and a ciphertext that decrypts under the master password alone to the entries' JSON |
| CsvApp.ReadVault | app.js:218-245 | opening takes the IV from the file; entries are replaced only after both decrypt and parse succeed; an unreadable file leaves the session as reset |
| CsvApp.Open | app.js:198-238 | open never writes, sets the typed password, and leaves the entry list empty on any failure; a one-line file fails with "Invalid CSV format"; a parsed file sets the database name and takes the IV text from the file; open succeeds exactly when the ciphertext loads under the typed password alone, and the entries are what it loads to |
| CsvApp.SaveThenOpen | app.js:218-238 | opening the file a successful save wrote, with the same password, yields exactly the saved entries and the same IV |
| CsvApp.CreateThenOpen | app.js:189-194 | opening a created vault with its password yields exactly `[test]` under the IV drawn at creation |
| CsvApp.AddEntry | app.js:402-404 | add appends exactly one entry at the end, leaves the earlier entries and the other fields alone, and then saves once |
| CsvApp.DeleteEntry | app.js:412-438 | delete on an empty list changes and writes nothing; otherwise it removes exactly the chosen entry and saves once |
| CsvApp.Apply | app.js:402-438 | a vault menu edit changes only the entry list |
| CsvApp.RunKeepsIv | app.js:60-67 | over any run of edits the session keeps its IV, password and database, and every record written carries the session's original IV text |
| CsvApp.DeleteSecondOfThree | app.js:434-438 | deleting index 2 of `[A, B, C]` leaves `[A, C]` and writes the vault |
| CsvApp.Run | app.js:249-275 | a run of vault menu edits writes at most one record per edit |
| SqlApp.ImageHash | appSqlCopy.js:135-155 | an existing image gives 64 hex digits decoding to its SHA-256; a missing one gives the fixed message |
| SqlApp.ImageHashNonEmpty | appSqlCopy.js:153 | the fingerprint is never empty, and a real fingerprint is never the message |
| SqlApp.CreateAsWritten | appSqlCopy.js:238-280 | create as written, whatever the password, seeds `[test]` under the drawn IV; it succeeds exactly when the server runs `CREATE DATABASE` and `USE` and the name is not one MySQL refuses (empty, over 64 characters, ending in white space), and then appends one record (32-character IV hex, ciphertext of `[test]` under password plus fingerprint) after the rows already in the table; otherwise `USE` throws (appSqlCopy.js:482, 487-489) and the table is left alone |
| SqlApp.Create | appSqlCopy.js:265-268 | corrected create refuses an empty password or name without touching the table; otherwise it behaves as written, so it appends one record and keeps the earlier rows exactly when the server accepts the name |
| SqlApp.EmptyPasswordStillCreates | appSqlCopy.js:265-279 | as written, an empty password with a database name the server accepts still appends a record, and with a refused name the table is left alone; the corrected create never appends on an empty password |
| SqlApp.TrailingSpaceNameRefused | appSqlCopy.js:496-501 | creating under the name `"vault "`, which ends in a space, fails and leaves the table alone |
| SqlApp.Open | appSqlCopy.js:370-426 | open uses only the first row; its IV text becomes the session IV; the key material is password plus fingerprint; an empty table is "No data found"; any failure leaves the entries empty |
| SqlApp.OpenReadsFirstRow | appSqlCopy.js:406-410 | rows after the first never affect open |
| SqlApp.Save | appSqlCopy.js:87-117 | a successful save leaves exactly one row, with the session's IV text and a ciphertext that decrypts under password plus fingerprint; a failed one leaves the table as it was |
| SqlApp.SaveThenOpen | appSqlCopy.js:406-416 | reopening after a save, with the same password and image fingerprint, yields exactly the saved entries and the same IV text |
| SqlApp.CreateThenOpen | appSqlCopy.js:270-279 | opening a vault just created in a new database, with the same password and image, yields exactly `[test]` under the drawn IV |
| SqlApp.MissingImageStillOpens | appSqlCopy.js:153 | with the image missing at both create and open, the message is the fingerprint, and the vault still opens |
| SqlApp.RecreateKeepsOldRecordFirst | appSqlCopy.js:511-525 | creating over a table that already holds a record keeps that record first, so open reads the old vault |
| SqlApp.SaveKeepsStoredIv | appSqlCopy.js:415 | saving a session opened from a table writes back exactly the IV text of the row it was opened from |
| SqlApp.AddEntry | appSqlCopy.js:704-707 | add appends exactly one entry at the end, keeps the rest, and performs one table save |
| SqlApp.DeleteEntry | appSqlCopy.js:715-742 | delete on an empty list is a no-op; otherwise it removes exactly the chosen entry and performs one table save |
| SqlApp.Apply | appSqlCopy.js:443-464 | a vault menu edit changes only the entry list, and the table either stays as it was or is what a save of the new session leaves |
| SqlApp.Run | appSqlCopy.js:443-464 | the stored IV never changes across saves: any run of edits keeps the session's IV, password, database and fingerprint, and leaves the table either as it was or holding one row with the session's original IV text |
| SqlApp.OpenFile | appSqlCopy.js:326-367 | this program's file open never writes and leaves the entries empty on failure |
| SqlApp.FileKeysDisagree | appSqlCopy.js:366 | this program's file save keys by the password alone (appSqlCopy.js:71), while its file open keys by password plus a never-empty fingerprint, so the two materials differ and no round trip is claimed |

## Findings

| source | as written | input that shows it | evidently intended | confidence | as-written member | corrected member |
|---|---|---|---|---|---|---|
| app.js:184-187 | the guard prints "Master password cannot be empty." and opens the main menu, but has no `return`, so the vault is still created | master password `""` | stop, as `openDatabase` does at app.js:221-225, without writing a vault | high, not executed | CsvApp.CreateAsWritten | CsvApp.Create |
| appSqlCopy.js:265-268 | the same guard without `return`: a record is still appended to the table | master password `""` with a database name MySQL accepts | stop without touching the table | high, not executed | SqlApp.CreateAsWritten | SqlApp.Create |

## Left out

- Prompts and menus (`welcomeMenu`, `passwordVaultMenu`, the `inquirer` questions) are left out. They are interactive plumbing. Their answers are the parameters of the transitions.
- File reads and writes are left out. A file is its text. A missing vault file in `openDatabase` throws past every handler and ends the process, so it is not modelled. The image file is its bytes, or `None`. A read error on an existing image path is rethrown uncaught, so it is not modelled either.
- MySQL I/O is left out: connecting, `dotenv`, `CREATE DATABASE`, `USE`, transactions, `connectSQLDatabase`, `testSQLDatabase`, `createSqlDatabase`, `deleteTable` and `deleteDatabase`. These are network and database I/O. Only the table's rows are modelled, with whether `CREATE DATABASE` and `USE` succeed for create: the names MySQL always refuses (`SqlApp.RefusedName`) are stated, and every other server outcome is the parameter `serverOk`. A failure of `CREATE TABLE` or `INSERT` inside `createPWTable`, which is caught and still leads to the vault menu, is not modelled. The `CHAR(32)` column is not modelled as truncating; the IVs written always have 32 characters.
- Clipboard writes, the 10-second clear and the clipboard monitor imports are left out. They are timing and OS side effects.
- Console output, `console.table` and `figlet` are left out. They are presentation only. This includes `decrypt` in appSqlCopy.js printing the master password and the derived key at lines 121-123.
- The commented-out `imageUpload` block and the "Image Upload" menu path are left out. In app.js, `imageUpload` only sets `imageHash`, which no modelled path of that program reads.
- `createCSVandEncrypt` in appSqlCopy.js is not called. It is the same as app.js's, whose behaviour `CsvApp.CreateAsWritten` models. Likewise that file's `saveDatabase`, `encrypt`, `encryptExistingFile`, `decrypt` and `loadDatabase` are shared with `CsvApp.Save` and `Cipher`.
- The `imagePath` variable of appSqlCopy.js is left out. It is only passed straight to `getImgHash`, so it is not kept in the session.
- SHA-256, AES-256-CBC, `crypto.randomBytes`, `JSON.stringify` and `JSON.parse` are foreign library calls. They are abstract, constrained only by `Lawful`. Random bytes are parameters. Whether a wrong key decrypts to garbage or fails is left to the primitive.
- Hex.Decode: only ASCII hex digits are read. Node looks a non-ASCII UTF-16 code unit up by its low byte, so a stored IV or ciphertext field holding such a character may decode further in the program than in the model.
- Cipher.Load: `JSON.parse` is modelled as yielding an entry list or failing. A decrypted JSON value that is not a list of entries would be stored in `entries` by the program, but the model does not cover it.
- Entries.AcceptsCopyIndex: numbers whose JavaScript string form uses an exponent are not modelled, and neither is the rounding of what was typed to a double, which happens before the prompt sees it; `input` is the double already. Below 1e-6 or from 1e21 up, `parseInt` reads only the leading digit. The prompt then accepts a number the model rejects, but in both cases no entry is selected.
- Text.IsSpace follows the ECMAScript white-space and line-terminator sets. Dafny characters are Unicode scalar values, so lone surrogate halves of JavaScript strings are not modelled.

=== FILE: cipher.dfy ===
/** Key derivation, AES-256-CBC encryption and decryption of the entry list,
    and the image fingerprint, with the foreign primitives left abstract.

    SHA-256 (FIPS 180-4), AES-256-CBC with PKCS#7 padding (NIST SP 800-38A
    section 6.2, RFC 5652 section 6.3), `JSON.stringify` and `JSON.parse` are
    not defined here: they are fields of `Primitives`, and every property that
    needs them assumes only the laws collected in `Lawful`. */
module Cipher {
  import opened Results
  import opened Entries
  import Hex
  import Text

  type Bytes = seq<Hex.Byte>

  const KeyLength := 32
  const IvLength := 16

  datatype Primitives = Primitives(
    /** SHA-256 of the UTF-8 encoding of a string. */
    digestText: string -> Bytes,
    /** SHA-256 of raw bytes. */
    digestBytes: Bytes -> Bytes,
    /** AES-256-CBC of the UTF-8 encoding of a string under key and IV. */
    encipher: (Bytes, Bytes, string) -> Bytes,
    /** Its inverse; None when the final block's padding is invalid. */
    decipher: (Bytes, Bytes, Bytes) -> Option<string>,
    stringify: seq<Entry> -> string,
    parse: string -> Option<seq<Entry>>)

  /** The only facts about the primitives the model relies on. */
  ghost predicate Lawful(p: Primitives) {
    && (forall s :: |p.digestText(s)| == KeyLength)
    && (forall b :: |p.digestBytes(b)| == KeyLength)
    && (forall key, iv, m :: |key| == KeyLength && |iv| == IvLength ==>
          p.decipher(key, iv, p.encipher(key, iv, m)) == Some(m))
    && (forall es :: p.parse(p.stringify(es)) == Some(es))
  }

  /** `createHash("sha256").update(material).digest("hex")`. */
  function DigestHex(p: Primitives, material: string): (h: string)
    requires Lawful(p)
    ensures |h| == 2 * KeyLength && Hex.IsHex(h)
  {
    Hex.Encode(p.digestText(material))
  }

  /** The AES key every path builds: `Buffer.from(DigestHex(material), "hex")`.
      It is the raw digest of the key material. */
  function Key(p: Primitives, material: string): (key: Bytes)
    requires Lawful(p)
    ensures key == p.digestText(material)
    ensures |key| == KeyLength
  {
    Hex.DecodeEncode(p.digestText(material));
    Hex.Decode(DigestHex(p, material))
  }

  /** The session's `currentIV`: the Buffer `encrypt` drew, or the hex string
      read back from a stored record. */
  datatype IvValue = IvBuffer(bytes: Bytes) | IvString(text: string) {

    /** `Buffer.from(currentIV, "hex")`: a Buffer is copied, a string decoded
        leniently, one byte per leading pair of hex digits. */
    function AsBuffer(): (b: Bytes)
      ensures IvBuffer? ==> b == bytes
      ensures IvString? ==> 2 * |b| <= |text|
      ensures IvString? && Hex.IsHex(text) ==> |b| == |text| / 2
    {
      match this
      case IvBuffer(b) => b
      case IvString(t) => (if Hex.IsHex(t) then Hex.DecodeLength(t); Hex.Decode(t) else Hex.Decode(t))
    }

    /** `currentIV.toString("hex")`: a Buffer is encoded, a string returned as
        is (`String.prototype.toString` ignores its argument). */
    function AsHex(): (h: string)
      ensures IvString? ==> h == text
      ensures IvBuffer? ==> |h| == 2 * |bytes| && Hex.IsHex(h) && Hex.Decode(h) == bytes
    {
      match this
      case IvBuffer(b) => Hex.DecodeEncode(b); Hex.Encode(b)
      case IvString(t) => t
    }
  }

  /** Whichever form the IV has, its hex text reads back as the bytes used. */
  lemma IvHexReadsBack(iv: IvValue)
    ensures Hex.Decode(iv.AsHex()) == iv.AsBuffer()
  {
    if iv.IvBuffer? {
      Hex.DecodeEncode(iv.bytes);
    }
  }

  /** `decrypt(data, material, iv)`: builds the key, decodes the IV, then
      deciphers the hex text `data`, which is undefined when the record row
      had no second field. `decipher.update` rejects hex text whose
      JavaScript length, in UTF-16 code units, is odd. */
  function Decrypt(p: Primitives, data: Option<string>, material: string, ivText: string): (r: Result<string>)
    requires Lawful(p)
    ensures r.Failure? && |Hex.Decode(ivText)| != IvLength ==> r.error == InvalidIvLength
    ensures |Hex.Decode(ivText)| != IvLength || data.None? ==> r.Failure?
    ensures |Hex.Decode(ivText)| == IvLength && data.Some? && Text.Utf16Length(data.value) % 2 == 1 ==>
              r == Failure(OddHexLength)
    ensures |Hex.Decode(ivText)| == IvLength && data.Some? && Text.Utf16Length(data.value) % 2 == 0 ==>
              (r.Success? <==> p.decipher(p.digestText(material), Hex.Decode(ivText), Hex.Decode(data.value)).Some?)
  {
    var key := Key(p, material);
    var iv := Hex.Decode(ivText);
    if |key| != KeyLength then Failure(InvalidKeyLength)
    else if |iv| != IvLength then Failure(InvalidIvLength)
    else if data.None? then Failure(MissingCiphertext)
    else if Text.Utf16Length(data.value) % 2 != 0 then Failure(OddHexLength)
    else match p.decipher(key, iv, Hex.Decode(data.value))
      case None => Failure(BadDecrypt)
      case Some(m) => Success(m)
  }

  /** Hex text is all ASCII, so its JavaScript length is its character
      count, two per byte, and never odd. */
  lemma EncodedLengthEven(bs: Bytes)
    ensures Text.Utf16Length(Hex.Encode(bs)) == 2 * |bs|
  {
  }

  /** Hex ciphertext enciphered under the key of `material` and the IV that
      `ivText` decodes to deciphers back to the plaintext. */
  lemma DecryptEnciphered(p: Primitives, plaintext: string, material: string, ivText: string)
    requires Lawful(p) && |Hex.Decode(ivText)| == IvLength
    ensures var c := p.encipher(Key(p, material), Hex.Decode(ivText), plaintext);
            Hex.IsHex(Hex.Encode(c)) && Decrypt(p, Some(Hex.Encode(c)), material, ivText) == Success(plaintext)
  {
    var c := p.encipher(Key(p, material), Hex.Decode(ivText), plaintext);
    Hex.DecodeEncode(c);
    EncodedLengthEven(c);
  }

  /** What `encrypt` returns, together with the value it stores in `currentIV`. */
  datatype Sealed = Sealed(iv: IvValue, ivHex: string, data: string)

  /** `encrypt(plaintext, material)` with `drawn` the 16 bytes
      `crypto.randomBytes` drew: the IV becomes the session IV, and the
      returned text decrypts under the same material and IV. */
  function Encrypt(p: Primitives, plaintext: string, material: string, drawn: Bytes): (r: Sealed)
    requires Lawful(p) && |drawn| == IvLength
    ensures r.iv == IvBuffer(drawn) && Hex.Decode(r.ivHex) == drawn
    ensures |r.ivHex| == 2 * IvLength && Hex.IsHex(r.ivHex) && Hex.IsHex(r.data)
    ensures Decrypt(p, Some(r.data), material, r.ivHex) == Success(plaintext)
  {
    var ivHex := Hex.Encode(drawn);
    Hex.DecodeEncode(drawn);
    DecryptEnciphered(p, plaintext, material, ivHex);
    Sealed(IvBuffer(drawn), ivHex, Hex.Encode(p.encipher(Key(p, material), drawn, plaintext)))
  }

  /** `encryptExistingFile(plaintext, material, iv)`: encrypts under a given
      IV, which fails unless the IV reads as exactly 16 bytes; the result
      decrypts under the same material and the IV's hex text. */
  function EncryptExisting(p: Primitives, plaintext: string, material: string, iv: IvValue): (r: Result<string>)
    requires Lawful(p)
    ensures r.Success? <==> |iv.AsBuffer()| == IvLength
    ensures r.Failure? ==> r.error == InvalidIvLength
    ensures r.Success? ==> Hex.IsHex(r.value)
    ensures r.Success? ==> Decrypt(p, Some(r.value), material, iv.AsHex()) == Success(plaintext)
  {
    var key := Key(p, material);
    if |key| != KeyLength then Failure(InvalidKeyLength)
    else if |iv.AsBuffer()| != IvLength then Failure(InvalidIvLength)
    else
      IvHexReadsBack(iv);
      DecryptEnciphered(p, plaintext, material, iv.AsHex());
      Success(Hex.Encode(p.encipher(key, iv.AsBuffer(), plaintext)))
  }

  /** `loadDatabase`'s two steps: decrypt, then `JSON.parse`. */
  function Load(p: Primitives, data: Option<string>, material: string, ivText: string): (r: Result<seq<Entry>>)
    requires Lawful(p)
    ensures r.Success? <==> && Decrypt(p, data, material, ivText).Success?
                            && p.parse(Decrypt(p, data, material, ivText).value).Some?
    ensures r.Success? ==> p.parse(Decrypt(p, data, material, ivText).value) == Some(r.value)
    ensures Decrypt(p, data, material, ivText).Success? && r.Failure? ==> r.error == InvalidJson
  {
    match Decrypt(p, data, material, ivText)
    case Failure(e) => Failure(e)
    case Success(text) =>
      match p.parse(text)
      case None => Failure(InvalidJson)
      case Some(es) => Success(es)
  }

  /** Loading what was encrypted from the JSON of an entry list gives that list. */
  lemma LoadSealed(p: Primitives, entries: seq<Entry>, material: string, ivText: string, data: string)
    requires Lawful(p)
    requires Decrypt(p, Some(data), material, ivText) == Success(p.stringify(entries))
    ensures Load(p, Some(data), material, ivText) == Success(entries)
  {
  }

  /** `hashImage(bytes)`: the hex SHA-256 of a file's bytes. */
  function HashImage(p: Primitives, bytes: Bytes): (h: string)
    requires Lawful(p)
    ensures |h| == 2 * KeyLength && Hex.IsHex(h)
    ensures Hex.Decode(h) == p.digestBytes(bytes)
  {
    Hex.DecodeEncode(p.digestBytes(bytes));
    Hex.Encode(p.digestBytes(bytes))
  }

  /** `createPasswordHash(masterPassword, imageHash)`: the hex digest of the
      concatenation. Its bytes are exactly the key that the combined key
      material `masterPassword + imageHash` yields. */
  function PasswordHash(p: Primitives, masterPassword: string, imageHash: string): (h: string)
    requires Lawful(p)
    ensures |h| == 2 * KeyLength && Hex.IsHex(h)
    ensures Hex.Decode(h) == Key(p, masterPassword + imageHash)
  {
    Hex.DecodeEncode(p.digestText(masterPassword + imageHash));
    Hex.Encode(p.digestText(masterPassword + imageHash))
  }
}

=== FILE: csv_app.dfy ===
/** The file-backed program (app.js): a vault is the text file
    `<name>.csv`, and the AES key is the SHA-256 of the master password
    alone on every path. */
module CsvApp {
  import opened Results
  import opened Entries
  import opened Cipher
  import opened Records
  import opened Vault
  import Hex

  /** `createDatabase` as written: the empty-input guard prints a message and
      opens the main menu but does not return, so the vault holding the one
      test entry is written whatever the inputs. `drawn` is the IV
      `crypto.randomBytes(16)` produced. */
  function CreateAsWritten(p: Primitives, s: Session, dbName: string, pw: string, drawn: Bytes): (r: Step)
    requires Lawful(p) && |drawn| == IvLength
    ensures r.status == Done && r.written.Some?
    ensures r.session.entries == [TestEntry]
    ensures r.session.masterPassword == pw && r.session.db == dbName && r.session.iv == IvBuffer(drawn)
    ensures r.written.value.iv == Hex.Encode(drawn)
    ensures Decrypt(p, Some(r.written.value.data), pw, r.written.value.iv) == Success(p.stringify([TestEntry]))
  {
    var s0 := Reset(s).(masterPassword := pw);
    var entries := s0.entries + [TestEntry];
    var sealed := Encrypt(p, p.stringify(entries), pw, drawn);
    Step(s0.(entries := entries, db := dbName, iv := sealed.iv), Done, Some(Record(sealed.ivHex, sealed.data)))
  }

  /** `createDatabase` with the guard returning, as its message intends: an
      empty master password or database name creates nothing. */
  function Create(p: Primitives, s: Session, dbName: string, pw: string, drawn: Bytes): (r: Step)
    requires Lawful(p) && |drawn| == IvLength
    ensures r.status.Failed? <==> pw == "" || dbName == ""
    ensures r.status.Failed? ==> r.status.error == EmptyCredentials && r.written == None && r.session.entries == []
    ensures r.status.Done? ==> r.written.Some? && r.session.entries == [TestEntry]
    ensures r.status.Done? ==> r.session.masterPassword == pw && r.session.iv == IvBuffer(drawn)
    ensures r.status.Done? ==> r.written.value.iv == Hex.Encode(drawn)
    ensures r.status.Done? ==> Decrypt(p, Some(r.written.value.data), pw, r.written.value.iv) == Success(p.stringify([TestEntry]))
  {
    if pw == "" || dbName == "" then Step(Reset(s).(masterPassword := pw), Failed(EmptyCredentials), None)
    else CreateAsWritten(p, s, dbName, pw, drawn)
  }

  /** With both inputs present the corrected and the written create agree. */
  lemma CreateAgrees(p: Primitives, s: Session, dbName: string, pw: string, drawn: Bytes)
    requires Lawful(p) && |drawn| == IvLength
    requires pw != "" && dbName != ""
    ensures Create(p, s, dbName, pw, drawn) == CreateAsWritten(p, s, dbName, pw, drawn)
  {
  }

  /** The discrepancy: as written, an empty master password still produces a
      vault file, one that opens with the empty password; the corrected
      create refuses and writes nothing. */
  lemma EmptyPasswordStillCreates(p: Primitives, s: Session, dbName: string, drawn: Bytes)
    requires Lawful(p) && |drawn| == IvLength
    ensures var r := CreateAsWritten(p, s, dbName, "", drawn);
            r.written.Some? && Load(p, Some(r.written.value.data), "", r.written.value.iv) == Success([TestEntry])
    ensures Create(p, s, dbName, "", drawn) == Step(Reset(s), Failed(EmptyCredentials), None)
  {
    var r := CreateAsWritten(p, s, dbName, "", drawn);
    LoadSealed(p, [TestEntry], "", r.written.value.iv, r.written.value.data);
  }

  /** `saveDatabase`: encrypts the JSON of the entries under the master
      password and the session IV (no new IV is drawn) and writes that IV's
      hex text with the ciphertext. Encryption fails, and nothing is written,
      when the IV does not read as 16 bytes. The session is left as it was. */
  function Save(p: Primitives, s: Session): (r: Step)
    requires Lawful(p)
    ensures r.session == s
    ensures r.status.Done? <==> |s.iv.AsBuffer()| == IvLength
    ensures r.status.Failed? ==> r.status.error == InvalidIvLength && r.written == None
    ensures r.status.Done? ==> r.written.Some? && r.written.value.iv == s.iv.AsHex() && Hex.IsHex(r.written.value.data)
    ensures r.status.Done? ==>
              Decrypt(p, Some(r.written.value.data), s.masterPassword, s.iv.AsHex()) == Success(p.stringify(s.entries))
  {
    match EncryptExisting(p, p.stringify(s.entries), s.masterPassword, s.iv)
    case Failure(e) => Step(s, Failed(e), None)
    case Success(data) => Step(s, Done, Some(Record(s.iv.AsHex(), data)))
  }

  /** The body of `openDatabase` after the prompt, with the session already
      reset and the key material chosen: parse the file, take the session IV
      from it, then `loadDatabase`. The entries are replaced only when both
      decryption and JSON parsing succeed. */
  function ReadVault(p: Primitives, s0: Session, dbName: string, material: string, text: string): (r: Step)
    requires Lawful(p)
    ensures r.written == None
    ensures r.session.masterPassword == s0.masterPassword && r.session.imageHash == s0.imageHash
    ensures r.status.Failed? ==> r.session.entries == s0.entries
    ensures Parse(text).Failure? <==> r.session == s0 && r.status == Failed(InvalidCsvFormat)
    ensures Parse(text).Success? ==> r.session.db == dbName && r.session.iv == IvString(Parse(text).value.iv)
    ensures r.status.Done? ==> Load(p, Parse(text).value.data, material, Parse(text).value.iv) == Success(r.session.entries)
  {
    match Parse(text)
    case Failure(e) => Step(s0, Failed(e), None)
    case Success(row) =>
      var s1 := s0.(db := dbName, iv := IvString(row.iv));
      match Load(p, row.data, material, row.iv)
      case Failure(e) => Step(s1, Failed(e), None)
      case Success(es) => Step(s1.(entries := es), Done, None)
  }

  /** `openDatabase` and `loadDatabase`: the IV and database come from the
      file and the name typed, and the entries are what the ciphertext loads
      to under the typed master password alone. A failed open leaves the
      entry list empty. */
  function Open(p: Primitives, s: Session, dbName: string, pw: string, text: string): (r: Step)
    requires Lawful(p)
    ensures r.written == None && r.session.masterPassword == pw
    ensures r.status.Failed? ==> r.session.entries == []
    ensures '\n' !in Text.Trim(text) ==> r.status == Failed(InvalidCsvFormat) && r.session.db == ""
    ensures Parse(text).Success? ==> r.session.db == dbName && r.session.iv == IvString(Parse(text).value.iv)
    ensures Parse(text).Success? ==>
              (r.status.Done? <==> Load(p, Parse(text).value.data, pw, Parse(text).value.iv).Success?)
    ensures r.status.Done? ==>
              Parse(text).Success? && Load(p, Parse(text).value.data, pw, Parse(text).value.iv) == Success(r.session.entries)
  {
    ReadVault(p, Reset(s).(masterPassword := pw), dbName, pw, text)
  }

  /** Vault round trip: a successful save, read back by open with the same
      master password, yields exactly the saved entries, and the reopened
      session carries the same IV text and bytes. */
  lemma SaveThenOpen(p: Primitives, s: Session, other: Session, dbName: string)
    requires Lawful(p) && IvUsable(s.iv)
    ensures Save(p, s).written.Some?
    ensures var o := Open(p, other, dbName, s.masterPassword, Format(Save(p, s).written.value));
            && o.status == Done
            && o.session.entries == s.entries
            && o.session.iv == IvString(s.iv.AsHex())
            && o.session.iv.AsBuffer() == s.iv.AsBuffer()
            && o.session.db == dbName
  {
    var w := Save(p, s).written.value;
    HexIsCellSafe(w.data);
    ParseFormat(w);
    LoadSealed(p, s.entries, s.masterPassword, w.iv, w.data);
    IvHexReadsBack(s.iv);
  }

  /** Creating a vault and opening its file with the same master password
      yields exactly the seeded test entry, under the IV drawn at creation. */
  lemma CreateThenOpen(p: Primitives, s: Session, other: Session, dbName: string, pw: string, drawn: Bytes)
    requires Lawful(p) && |drawn| == IvLength && pw != "" && dbName != ""
    ensures var c := Create(p, s, dbName, pw, drawn);
            && c.written.Some?
            && var o := Open(p, other, dbName, pw, Format(c.written.value));
            && o.status == Done && o.session.entries == [TestEntry]
            && o.session.iv.AsBuffer() == drawn
  {
    var c := Create(p, s, dbName, pw, drawn);
    IvUsableCases(c.session.iv);
    SaveThenOpen(p, c.session, other, dbName);
    assert Save(p, c.session).written == c.written;
  }

  /** `addEntry`: appends one entry at the end, keeping the others in order,
      then saves once. */
  function AddEntry(p: Primitives, s: Session, title: string, username: string, choice: PasswordChoice): (r: Step)
    requires Lawful(p) && WellFormed(choice)
    ensures |r.session.entries| == |s.entries| + 1
    ensures r.session.entries[..|s.entries|] == s.entries
    ensures r.session.entries[|s.entries|] == Entry(title, username, NewPassword(choice))
    ensures SameButEntries(r.session, s)
    ensures r == Save(p, r.session)
  {
    Save(p, s.(entries := s.entries + [Entry(title, username, NewPassword(choice))]))
  }

  /** `deleteEntry`: with no entries nothing changes and nothing is saved;
      otherwise the chosen entry (shown as index + 1) is removed, the rest
      keep their order, and the vault is saved once. */
  function DeleteEntry(p: Primitives, s: Session, index: nat): (r: Step)
    requires Lawful(p)
    requires |s.entries| == 0 || index < |s.entries|
    ensures |s.entries| == 0 ==> r == Step(s, Done, None)
    ensures |s.entries| > 0 ==> r.session.entries == RemoveAt(s.entries, index)
    ensures |s.entries| > 0 ==> r == Save(p, r.session)
    ensures SameButEntries(r.session, s)
  {
    if |s.entries| == 0 then Step(s, Done, None)
    else Save(p, s.(entries := RemoveAt(s.entries, index)))
  }

  /** One vault menu edit. */
  function Apply(p: Primitives, s: Session, edit: Edit): (r: Step)
    requires Lawful(p) && Applicable(s, edit)
    ensures SameButEntries(r.session, s)
  {
    match edit
    case Add(title, username, choice) => AddEntry(p, s, title, username, choice)
    case Delete(index) => DeleteEntry(p, s, index)
  }

  /** The menu prompts only offer what `Applicable` allows at each point. */
  predicate Runnable(p: Primitives, s: Session, edits: seq<Edit>)
    requires Lawful(p)
    decreases |edits|
  {
    |edits| == 0 || (Applicable(s, edits[0]) && Runnable(p, Apply(p, s, edits[0]).session, edits[1..]))
  }

  /** A sequence of edits: the final session and every record written,
      at most one per edit. */
  function Run(p: Primitives, s: Session, edits: seq<Edit>): (r: (Session, seq<Record>))
    requires Lawful(p) && Runnable(p, s, edits)
    ensures |r.1| <= |edits|
    decreases |edits|
  {
    if |edits| == 0 then (s, [])
    else
      var step := Apply(p, s, edits[0]);
      var rest := Run(p, step.session, edits[1..]);
      (rest.0, (if step.written.Some? then [step.written.value] else []) + rest.1)
  }

  /** The IV is fixed for the whole session: any run of edits keeps the
      session's IV, password and database, and every record it writes
      carries the IV text the session started with. */
  lemma {:induction false} RunKeepsIv(p: Primitives, s: Session, edits: seq<Edit>)
    requires Lawful(p) && Runnable(p, s, edits)
    ensures SameButEntries(Run(p, s, edits).0, s)
    ensures forall i :: 0 <= i < |Run(p, s, edits).1| ==> Run(p, s, edits).1[i].iv == s.iv.AsHex()
    decreases |edits|
  {
    if |edits| > 0 {
      var step := Apply(p, s, edits[0]);
      RunKeepsIv(p, step.session, edits[1..]);
      if step.written.Some? {
        assert step == Save(p, step.session);
      }
    }
  }

  /** Deleting the second of three entries (shown as index 2) leaves the
      first and third, and writes the vault once. */
  lemma DeleteSecondOfThree(p: Primitives, s: Session, a: Entry, b: Entry, c: Entry)
    requires Lawful(p) && s.entries == [a, b, c] && IvUsable(s.iv)
    ensures DeleteEntry(p, s, 1).session.entries == [a, c]
    ensures DeleteEntry(p, s, 1).written.Some?
  {
    assert RemoveAt([a, b, c], 1) == [a, c];
  }
}

=== FILE: entries.dfy ===
/** The entry store: the ordered list of credentials held by an open vault,
    the masked listing shown to the user, the copy-to-clipboard selection, and
    the random password offered when an entry is added. */
module Entries {
  import opened Results
  import Hex

  datatype Entry = Entry(title: string, username: string, password: string)

  /** The one entry a freshly created vault holds. */
  const TestEntry := Entry("test", "test", "test")

  /** `entries.splice(index, 1)`: removes the entry at a 0-based index. */
  function RemoveAt(entries: seq<Entry>, index: nat): (r: seq<Entry>)
    requires index < |entries|
    ensures |r| == |entries| - 1
    ensures forall j :: 0 <= j < index ==> r[j] == entries[j]
    ensures forall j :: index <= j < |r| ==> r[j] == entries[j + 1]
    ensures multiset(r) + multiset{entries[index]} == multiset(entries)
  {
    assert entries == entries[..index] + [entries[index]] + entries[index + 1..];
    entries[..index] + entries[index + 1..]
  }

  /** Putting the removed entry back where it was restores the list. */
  lemma RemoveAtThenInsert(entries: seq<Entry>, index: nat)
    requires index < |entries|
    ensures var r := RemoveAt(entries, index);
            r[..index] + [entries[index]] + r[index..] == entries
  {
    var r := RemoveAt(entries, index);
    assert r[..index] == entries[..index];
    assert r[index..] == entries[index + 1..];
    assert entries[..index] + [entries[index]] + entries[index + 1..] == entries;
  }

  /** One line of the table `viewEntries` prints. */
  datatype Shown = Shown(index: int, title: string, username: string, password: string)

  const Mask := "*****"

  /** The listing: 1-based index, title and username, password masked. */
  function Display(entries: seq<Entry>): (rows: seq<Shown>)
    ensures |rows| == |entries|
    ensures forall i :: 0 <= i < |rows| ==>
              rows[i].title == entries[i].title && rows[i].username == entries[i].username
    ensures forall i :: 0 <= i < |rows| ==> rows[i].password == Mask && rows[i].index == i + 1
  {
    seq(|entries|, i requires 0 <= i < |entries| =>
      Shown(i + 1, entries[i].title, entries[i].username, Mask))
  }

  /** `parseInt` applied to a number written without an exponent: the digits
      before the decimal point, with the sign. */
  function ParseInt(x: real): int {
    if x >= 0.0 then x.Floor else -((-x).Floor)
  }

  /** The copy prompt's validation. `input` is the IEEE double JavaScript
      holds for what was typed (None for NaN), so a decimal too long for a
      double is already rounded. It must parse to an integer between 1 and
      the number of entries: since `parseInt` truncates, that admits
      exactly the numbers from 1 up to, but excluding, count + 1. */
  predicate AcceptsCopyIndex(count: nat, input: Option<real>): (ok: bool)
    ensures ok <==> input.Some? && 1.0 <= input.value < (count + 1) as real
  {
    input.Some? && 1 <= ParseInt(input.value) <= count
  }

  /** `entries[entryIndex - 1]` for an accepted input: a whole number k
      selects the entry the listing shows with index k; a number with a
      fractional part indexes nothing, so no entry is selected. */
  function CopySelection(entries: seq<Entry>, input: real): (r: Option<Entry>)
    requires AcceptsCopyIndex(|entries|, Some(input))
    ensures r.Some? <==> input == input.Floor as real
    ensures r.Some? ==> 1 <= input.Floor <= |entries|
    ensures r.Some? ==> Display(entries)[input.Floor - 1].index as real == input
                        && r.value == entries[input.Floor - 1]
  {
    if input == input.Floor as real then Some(entries[input.Floor - 1]) else None
  }

  /** The copy prompt accepts an integer k exactly when 1 <= k <= length,
      and then selects the entry shown with index k. */
  lemma CopySelectsShownEntry(entries: seq<Entry>, k: int)
    ensures AcceptsCopyIndex(|entries|, Some(k as real)) <==> 1 <= k <= |entries|
    ensures 1 <= k <= |entries| ==>
              && CopySelection(entries, k as real) == Some(entries[k - 1])
              && Display(entries)[k - 1].index == k
              && Display(entries)[k - 1].title == entries[k - 1].title
              && Display(entries)[k - 1].username == entries[k - 1].username
  {
    assert (k as real).Floor == k;
    if k < 0 {
      assert (-(k as real)).Floor == -k;
    }
  }

  /** An accepted number with a fractional part selects nothing. */
  lemma FractionSelectsNothing(entries: seq<Entry>, input: real)
    requires AcceptsCopyIndex(|entries|, Some(input))
    requires input != input.Floor as real
    ensures CopySelection(entries, input) == None
  {
  }

  /** The characters a random password is drawn from. */
  const Charset := "abcdefghijklmnopqrstuvwxyzABCDEFGHIJKLMNOPQRSTUVWXYZ0123456789!@#$%^&*()-_=+"
  const PasswordLength := 16

  /** Each random byte picks the character at `byte % 76`. */
  function GeneratedPassword(bytes: seq<Hex.Byte>): (pw: string)
    ensures |pw| == |bytes|
    ensures forall i :: 0 <= i < |bytes| ==> pw[i] == Charset[bytes[i] % 76]
  {
    if |bytes| == 0 then ""
    else GeneratedPassword(bytes[..|bytes| - 1]) + [Charset[bytes[|bytes| - 1] % |Charset|]]
  }

  /** The generator loop of `addEntry`, over the bytes `crypto.randomBytes(16)` drew. */
  method RandomPassword(bytes: seq<Hex.Byte>) returns (pw: string)
    requires |bytes| == PasswordLength
    ensures |pw| == PasswordLength
    ensures forall i :: 0 <= i < PasswordLength ==> pw[i] == Charset[bytes[i] % 76]
    ensures forall i :: 0 <= i < |pw| ==> pw[i] in Charset
    ensures pw == GeneratedPassword(bytes)
  {
    var maxIndex := |Charset|;
    pw := "";
    for i := 0 to PasswordLength
      invariant |pw| == i
      invariant forall j :: 0 <= j < i ==> pw[j] == Charset[bytes[j] % 76]
    {
      pw := pw + [Charset[bytes[i] % maxIndex]];
    }
  }

  /** Where the password of a new entry comes from. */
  datatype PasswordChoice = Typed(password: string) | Generated(bytes: seq<Hex.Byte>)

  predicate WellFormed(choice: PasswordChoice) {
    choice.Generated? ==> |choice.bytes| == PasswordLength
  }

  /** The password `addEntry` stores: the typed one, or one generated from
      the random bytes, sixteen characters all taken from the charset. */
  function NewPassword(choice: PasswordChoice): (pw: string)
    requires WellFormed(choice)
    ensures choice.Typed? ==> pw == choice.password
    ensures choice.Generated? ==> |pw| == PasswordLength && forall i :: 0 <= i < |pw| ==> pw[i] in Charset
    ensures choice.Generated? ==> forall i :: 0 <= i < |pw| ==> pw[i] == Charset[choice.bytes[i] % 76]
  {
    match choice
    case Typed(p) => p
    case Generated(bytes) => GeneratedPassword(bytes)
  }
}

=== FILE: hex.dfy ===
/** Bytes and their hexadecimal text, as Node's `Buffer` writes and reads it:
    `toString("hex")` writes two lower-case digits per byte, and
    `Buffer.from(text, "hex")` reads digit pairs (either case) up to the first
    pair that is not two hex digits, ignoring a trailing odd digit. */
module Hex {

  type Byte = b: int | 0 <= b < 256

  predicate IsHexDigit(c: char) {
    ('0' <= c <= '9') || ('a' <= c <= 'f') || ('A' <= c <= 'F')
  }

  predicate IsHex(s: string) {
    forall i :: 0 <= i < |s| ==> IsHexDigit(s[i])
  }

  function DigitValue(c: char): (n: int)
    requires IsHexDigit(c)
    ensures 0 <= n < 16
  {
    if '0' <= c <= '9' then c as int - '0' as int
    else if 'a' <= c <= 'f' then c as int - 'a' as int + 10
    else c as int - 'A' as int + 10
  }

  /** The lower-case digit for a nibble; `DigitValue` reads it back. */
  function Digit(n: int): (c: char)
    requires 0 <= n < 16
    ensures IsHexDigit(c) && DigitValue(c) == n
    ensures !('A' <= c <= 'F')
  {
    if n < 10 then ('0' as int + n) as char else ('a' as int + n - 10) as char
  }

  /** `buffer.toString("hex")`: lower-case digits, two per byte. */
  function Encode(bs: seq<Byte>): (s: string)
    ensures |s| == 2 * |bs|
    ensures IsHex(s)
    ensures forall i :: 0 <= i < |s| ==> !('A' <= s[i] <= 'F')
  {
    if |bs| == 0 then "" else [Digit(bs[0] / 16), Digit(bs[0] % 16)] + Encode(bs[1..])
  }

  /** `Buffer.from(s, "hex")`: decoding stops at the first pair that is not
      two hex digits, and an unpaired last digit is dropped. */
  function Decode(s: string): (bs: seq<Byte>)
    ensures 2 * |bs| <= |s|
    decreases |s|
  {
    if |s| < 2 || !IsHexDigit(s[0]) || !IsHexDigit(s[1]) then []
    else [DigitValue(s[0]) * 16 + DigitValue(s[1])] + Decode(s[2..])
  }

  /** What `Decode` reads: byte k is the value of the digit pair at 2k, and
      decoding stops at the first pair that is not two hex digits, or where
      fewer than two characters are left. */
  lemma {:induction false} DecodeReads(s: string)
    ensures var bs := Decode(s);
            forall k :: 0 <= k < |bs| ==>
              && IsHexDigit(s[2 * k]) && IsHexDigit(s[2 * k + 1])
              && bs[k] == DigitValue(s[2 * k]) * 16 + DigitValue(s[2 * k + 1])
    ensures var n := 2 * |Decode(s)|;
            n + 1 < |s| ==> !(IsHexDigit(s[n]) && IsHexDigit(s[n + 1]))
    decreases |s|
  {
    if |s| >= 2 && IsHexDigit(s[0]) && IsHexDigit(s[1]) {
      var bs := Decode(s);
      var rest := s[2..];
      DecodeReads(rest);
      assert bs == [DigitValue(s[0]) * 16 + DigitValue(s[1])] + Decode(rest);
      forall k | 1 <= k < |bs|
        ensures IsHexDigit(s[2 * k]) && IsHexDigit(s[2 * k + 1])
        ensures bs[k] == DigitValue(s[2 * k]) * 16 + DigitValue(s[2 * k + 1])
      {
        assert bs[k] == Decode(rest)[k - 1];
        assert s[2 * k] == rest[2 * (k - 1)] && s[2 * k + 1] == rest[2 * (k - 1) + 1];
      }
      var n := 2 * |bs|;
      if n + 1 < |s| {
        assert s[n] == rest[n - 2] && s[n + 1] == rest[n - 1];
      }
    }
  }

  /** Reading back what `Encode` wrote gives the bytes that were written. */
  lemma {:induction false} DecodeEncode(bs: seq<Byte>)
    ensures Decode(Encode(bs)) == bs
    decreases |bs|
  {
    if |bs| > 0 {
      var s := Encode(bs);
      assert s == [Digit(bs[0] / 16), Digit(bs[0] % 16)] + Encode(bs[1..]);
      assert s[2..] == Encode(bs[1..]);
      DecodeEncode(bs[1..]);
    }
  }

  /** Text made only of hex digits decodes in full: one byte per digit pair. */
  lemma {:induction false} DecodeLength(s: string)
    requires IsHex(s)
    ensures |Decode(s)| == |s| / 2
    decreases |s|
  {
    if |s| >= 2 {
      DecodeLength(s[2..]);
    }
  }
}

=== FILE: records.dfy ===
/** The stored form of a vault: one record of IV and ciphertext, kept either
    as a two-line CSV text file or as a row of the `encrypted_data` table. */
module Records {
  import opened Results
  import Text
  import Hex

  /** Both fields are hex text when this program writes them. */
  datatype Record = Record(iv: string, data: string)

  const Header := "IV,EncryptedData"

  /** The file text `saveDatabase` and `createCSVandEncrypt` write: two
      lines joined by a newline, the header and the IV and ciphertext joined
      by a comma, so that `split` undoes each join (`ParseFormat`). */
  function Format(rec: Record): string {
    Header + "\n" + rec.iv + "," + rec.data
  }

  /** Whatever the fields hold, the comma after the IV is not white space,
      so `trim` keeps the newline: a written file always has two lines and
      is never rejected as badly formatted. */
  lemma FormatNeverRejected(rec: Record)
    ensures Parse(Format(rec)).Success?
  {
    var text := Format(rec);
    var comma := |Header| + 1 + |rec.iv|;
    assert text[comma] == ',' && text[|Header|] == '\n' && text[0] == 'I';
    assert Text.TrimStart(text) == text;
    assert comma < |Text.Trim(text)|;
    assert Text.Trim(text)[|Header|] == '\n';
  }

  /** The fields `openDatabase` takes from the second line; `data` is None
      (JavaScript `undefined`) when that line has no comma. */
  datatype Row = Row(iv: string, data: Option<string>)

  /** `openDatabase`'s reading of a file: trim, split into lines, reject
      fewer than two, split the second line at commas and keep the first two
      fields. Rejection happens exactly when the trimmed text is one line. */
  function Parse(text: string): (r: Result<Row>)
    ensures r.Failure? <==> '\n' !in Text.Trim(text)
    ensures r.Failure? ==> r.error == InvalidCsvFormat
    ensures r.Success? ==> ',' !in r.value.iv && '\n' !in r.value.iv
  {
    var rows := Text.Split(Text.Trim(text), '\n');
    Text.SplitMany(Text.Trim(text), '\n');
    if |rows| < 2 then Failure(InvalidCsvFormat)
    else
      var fields := Text.Split(rows[1], ',');
      Success(Row(fields[0], if |fields| >= 2 then Some(fields[1]) else None))
  }

  /** A field that survives the file layout: no field or line separator. */
  predicate CellSafe(s: string) {
    ',' !in s && '\n' !in s
  }

  predicate EndsInSpace(s: string) {
    |s| > 0 && Text.IsSpace(s[|s| - 1])
  }

  /** Reading a written file gives back the IV and ciphertext that were
      written, when neither holds a separator and the ciphertext does not
      end in white space that `trim` would cut. */
  lemma ParseFormat(rec: Record)
    requires CellSafe(rec.iv) && CellSafe(rec.data) && !EndsInSpace(rec.data)
    ensures Parse(Format(rec)) == Success(Row(rec.iv, Some(rec.data)))
  {
    var line := rec.iv + [','] + rec.data;
    var text := Header + ['\n'] + line;
    assert Format(rec) == text;
    TrimLeavesRecord(rec.iv, rec.data);
    assert Text.Split(text, '\n') == [Header, line] by {
      Text.SplitAtFirst(Header, '\n', line);
      Text.SplitWithoutSeparator(line, '\n');
    }
    assert Text.Split(line, ',') == [rec.iv, rec.data] by {
      Text.SplitAtFirst(rec.iv, ',', rec.data);
      Text.SplitWithoutSeparator(rec.data, ',');
    }
  }

  /** A record whose ciphertext does not end in white space has nothing for
      `trim` to cut. */
  lemma TrimLeavesRecord(iv: string, data: string)
    requires !EndsInSpace(data)
    ensures var text := Header + ['\n'] + (iv + [','] + data); Text.Trim(text) == text
  {
    var text := Header + ['\n'] + (iv + [','] + data);
    assert text[0] == 'I';
    if |data| > 0 {
      assert text[|text| - 1] == data[|data| - 1];
    } else {
      assert text[|text| - 1] == ',';
    }
    Text.TrimKeeps(text);
  }

  /** Hex text is always safe to store in either field. */
  lemma HexIsCellSafe(s: string)
    requires Hex.IsHex(s)
    ensures CellSafe(s) && !EndsInSpace(s)
  {
  }

  /** A one-line file is rejected whatever it holds. */
  lemma OneLineRejected(text: string)
    requires '\n' !in text
    ensures Parse(text) == Failure(InvalidCsvFormat)
  {
  }
}

=== FILE: results.dfy ===
/** Failure-carrying wrappers shared by every module of the vault model. */
module Results {

  datatype Option<+T> = None | Some(value: T)

  /** The ways an operation of the vault can fail. Each names a point where the
      program throws (and catches) or prints a message and returns to a menu. */
  datatype Error =
    | EmptyCredentials     // create: master password or database name is empty
    | InvalidCsvFormat     // open: fewer than two lines in the vault file
    | InvalidKeyLength     // createCipheriv/createDecipheriv: key is not 32 bytes
    | InvalidIvLength      // createCipheriv/createDecipheriv: IV is not 16 bytes
    | MissingCiphertext    // decipher.update on an undefined ciphertext field
    | OddHexLength         // decipher.update on hex text of odd length
    | BadDecrypt           // decipher.final: padding does not check out
    | InvalidJson          // JSON.parse of the decrypted text fails
    | NoDataFound          // SQL open: the encrypted_data table has no rows
    | DatabaseUnavailable  // SQL: the named database cannot be created or selected

  datatype Result<+T> = Success(value: T) | Failure(error: Error)
}

=== FILE: sql_app.dfy ===
/** The table-backed program (appSqlCopy.js): a vault is the
    `encrypted_data` table of a MySQL database named after it, and the key
    material is the master password followed by the image fingerprint. The
    table is a sequence of records in insertion (primary key) order. */
module SqlApp {
  import opened Results
  import opened Entries
  import opened Cipher
  import opened Records
  import opened Vault
  import CsvApp
  import Hex

  /** What `getImgHash` returns when the path does not exist. */
  const MissingImageMessage := "The file path does not exist. Please enter a valid path."

  /** `getImgHash(imagePath)`, with `file` the bytes at that path, or None
      when `fs.existsSync` reports it missing: the hex SHA-256 of the bytes,
      or else the fixed message, which the callers use as if it were a hash. */
  function ImageHash(p: Primitives, file: Option<Bytes>): (h: string)
    requires Lawful(p)
    ensures file.Some? ==> |h| == 2 * KeyLength && Hex.IsHex(h) && Hex.Decode(h) == p.digestBytes(file.value)
    ensures file.None? ==> h == MissingImageMessage
  {
    match file
    case Some(bytes) => HashImage(p, bytes)
    case None => MissingImageMessage
  }

  /** A real fingerprint is never the message, and neither is empty, so the
      key material `masterPassword + imageHash` always differs from the
      master password. */
  lemma ImageHashNonEmpty(p: Primitives, file: Option<Bytes>)
    requires Lawful(p)
    ensures ImageHash(p, file) != ""
    ensures file.Some? ==> ImageHash(p, file) != MissingImageMessage
  {
    if file.Some? {
      assert |MissingImageMessage| != 2 * KeyLength;
    }
  }

  /** The key material of the table paths. */
  function Material(s: Session): string {
    s.masterPassword + s.imageHash
  }

  /** The outcome of a transition that writes the table: the new session,
      whether it succeeded, and the table's rows afterwards. */
  datatype TableStep = TableStep(session: Session, status: Status, table: seq<Record>)

  /** Database names MySQL refuses whatever the server's state: the empty
      name, a name longer than 64 characters, and one ending in ASCII white
      space. For such a name `CREATE DATABASE` fails, and the `USE` after it
      throws. */
  predicate RefusedName(name: string) {
    || |name| == 0
    || |name| > 64
    || name[|name| - 1] in {' ', '\t', '\n', '\U{B}', '\U{C}', '\r'}
  }

  /** `createDatabase` as written, with `table` the rows an
      `encrypted_data` table of that database already holds (none for a new
      database), and `serverOk` whether the server, the connection and its
      privileges let `CREATE DATABASE` and `USE` run. The guard does not
      return; the fingerprint of the image is computed and the one test
      entry is encrypted under password plus fingerprint. For a refused name,
      or when the server fails them, `USE` throws, `createPWTable` never runs
      and the table is left alone. Otherwise `createPWTable` appends the
      record after any rows already there. */
  function CreateAsWritten(p: Primitives, s: Session, dbName: string, pw: string, image: Option<Bytes>,
                           drawn: Bytes, table: seq<Record>, serverOk: bool): (r: TableStep)
    requires Lawful(p) && |drawn| == IvLength
    ensures r.session.entries == [TestEntry]
    ensures r.session.masterPassword == pw && r.session.imageHash == ImageHash(p, image)
    ensures r.session.iv == IvBuffer(drawn) && r.session.db == dbName
    ensures r.status.Done? <==> serverOk && !RefusedName(dbName)
    ensures r.status.Failed? ==> r.status.error == DatabaseUnavailable && r.table == table
    ensures r.status.Done? ==> |r.table| == |table| + 1 && r.table[..|table|] == table
    ensures r.status.Done? ==> r.table[|table|].iv == Hex.Encode(drawn) && |r.table[|table|].iv| == 32
    ensures r.status.Done? ==>
              Decrypt(p, Some(r.table[|table|].data), pw + ImageHash(p, image), r.table[|table|].iv)
                == Success(p.stringify([TestEntry]))
  {
    var s0 := Reset(s).(masterPassword := pw);
    var entries := s0.entries + [TestEntry];
    var h := ImageHash(p, image);
    var sealed := Encrypt(p, p.stringify(entries), pw + h, drawn);
    var s1 := s0.(entries := entries, db := dbName, imageHash := h, iv := sealed.iv);
    if !serverOk || RefusedName(dbName) then TableStep(s1, Failed(DatabaseUnavailable), table)
    else TableStep(s1, Done, table + [Record(sealed.ivHex, sealed.data)])
  }

  /** `createDatabase` with the guard returning, as its message intends. */
  function Create(p: Primitives, s: Session, dbName: string, pw: string, image: Option<Bytes>,
                  drawn: Bytes, table: seq<Record>, serverOk: bool): (r: TableStep)
    requires Lawful(p) && |drawn| == IvLength
    ensures r.status.Done? <==> pw != "" && dbName != "" && serverOk && !RefusedName(dbName)
    ensures pw == "" || dbName == "" ==> r.status == Failed(EmptyCredentials) && r.session.entries == []
    ensures r.status.Failed? ==> r.table == table
    ensures r.status.Done? ==> r.session.entries == [TestEntry] && r.session.iv == IvBuffer(drawn)
    ensures r.status.Done? ==> |r.table| == |table| + 1 && r.table[..|table|] == table
    ensures r.status.Done? ==>
              Decrypt(p, Some(r.table[|table|].data), Material(r.session), r.table[|table|].iv)
                == Success(p.stringify([TestEntry]))
  {
    if pw == "" || dbName == "" then TableStep(Reset(s).(masterPassword := pw), Failed(EmptyCredentials), table)
    else CreateAsWritten(p, s, dbName, pw, image, drawn, table, serverOk)
  }

  /** The discrepancy: as written, an empty master password with a database
      name the server accepts still stores a vault record; the corrected
      create leaves the table alone. */
  lemma EmptyPasswordStillCreates(p: Primitives, s: Session, dbName: string, image: Option<Bytes>,
                                  drawn: Bytes, table: seq<Record>, serverOk: bool)
    requires Lawful(p) && |drawn| == IvLength
    ensures serverOk && !RefusedName(dbName) ==>
              |CreateAsWritten(p, s, dbName, "", image, drawn, table, serverOk).table| == |table| + 1
    ensures RefusedName(dbName) ==> CreateAsWritten(p, s, dbName, "", image, drawn, table, serverOk).table == table
    ensures Create(p, s, dbName, "", image, drawn, table, serverOk).table == table
  {
  }

  /** A name ending in a space is refused: creating under `"vault "` fails
      and leaves the table as it was, whatever the password. */
  lemma TrailingSpaceNameRefused(p: Primitives, s: Session, pw: string, image: Option<Bytes>,
                                 drawn: Bytes, table: seq<Record>, serverOk: bool)
    requires Lawful(p) && |drawn| == IvLength
    ensures var c := CreateAsWritten(p, s, "vault ", pw, image, drawn, table, serverOk);
            c.status == Failed(DatabaseUnavailable) && c.table == table
  {
  }

  /** `openSqlDatabase` then `loadDatabase`: `table` is None when the
      database cannot be selected. Only the first row is read; its IV text
      becomes the session IV and the key material is password plus image
      fingerprint. A failed open leaves the entry list empty. */
  function Open(p: Primitives, s: Session, dbName: string, pw: string, image: Option<Bytes>,
                table: Option<seq<Record>>): (r: Step)
    requires Lawful(p)
    ensures r.written == None && r.session.masterPassword == pw && r.session.db == dbName
    ensures r.session.imageHash == ImageHash(p, image)
    ensures r.status.Failed? ==> r.session.entries == []
    ensures table == Some([]) ==> r.status == Failed(NoDataFound)
    ensures table == None ==> r.status == Failed(DatabaseUnavailable)
    ensures table.Some? && |table.value| > 0 ==>
              && r.session.iv == IvString(table.value[0].iv)
              && (r.status.Done? <==> Load(p, Some(table.value[0].data), Material(r.session), table.value[0].iv).Success?)
              && (r.status.Done? ==> Load(p, Some(table.value[0].data), Material(r.session), table.value[0].iv)
                                       == Success(r.session.entries))
  {
    var h := ImageHash(p, image);
    var s1 := Reset(s).(masterPassword := pw, imageHash := h, db := dbName);
    match table
    case None => Step(s1, Failed(DatabaseUnavailable), None)
    case Some(rows) =>
      if |rows| == 0 then Step(s1, Failed(NoDataFound), None)
      else
        var s2 := s1.(iv := IvString(rows[0].iv));
        match Load(p, Some(rows[0].data), pw + h, rows[0].iv)
        case Failure(e) => Step(s2, Failed(e), None)
        case Success(es) => Step(s2.(entries := es), Done, None)
  }

  /** Only the first row matters to open. */
  lemma OpenReadsFirstRow(p: Primitives, s: Session, dbName: string, pw: string, image: Option<Bytes>,
                          rows: seq<Record>)
    requires Lawful(p) && |rows| > 0
    ensures Open(p, s, dbName, pw, image, Some(rows)) == Open(p, s, dbName, pw, image, Some([rows[0]]))
  {
  }

  /** `saveSqlDatabase`: encrypts the JSON of the entries under password plus
      fingerprint and the session IV, then deletes every row and inserts one
      record carrying that same IV text. When encryption fails the table is
      left as it was. */
  function Save(p: Primitives, s: Session, table: seq<Record>): (r: TableStep)
    requires Lawful(p)
    ensures r.session == s
    ensures r.status.Done? <==> |s.iv.AsBuffer()| == IvLength
    ensures r.status.Failed? ==> r.status.error == InvalidIvLength && r.table == table
    ensures r.status.Done? ==> |r.table| == 1 && r.table[0].iv == s.iv.AsHex()
    ensures r.status.Done? ==> Decrypt(p, Some(r.table[0].data), Material(s), s.iv.AsHex()) == Success(p.stringify(s.entries))
  {
    match EncryptExisting(p, p.stringify(s.entries), Material(s), s.iv)
    case Failure(e) => TableStep(s, Failed(e), table)
    case Success(data) => TableStep(s, Done, [Record(s.iv.AsHex(), data)])
  }

  /** Vault round trip on the table: after a successful save, opening with
      the same master password and an image with the same fingerprint
      yields exactly the saved entries, and the IV text is unchanged. */
  lemma SaveThenOpen(p: Primitives, s: Session, table: seq<Record>, other: Session, dbName: string,
                     image: Option<Bytes>)
    requires Lawful(p) && |s.iv.AsBuffer()| == IvLength
    requires ImageHash(p, image) == s.imageHash
    ensures Save(p, s, table).status == Done
    ensures var o := Open(p, other, dbName, s.masterPassword, image, Some(Save(p, s, table).table));
            && o.status == Done && o.session.entries == s.entries
            && o.session.iv.AsHex() == s.iv.AsHex()
  {
    var w := Save(p, s, table).table[0];
    LoadSealed(p, s.entries, Material(s), w.iv, w.data);
  }

  /** Creating a vault in a new database and opening it with the same
      password and image yields exactly the seeded test entry. */
  lemma CreateThenOpen(p: Primitives, s: Session, other: Session, dbName: string, pw: string,
                       image: Option<Bytes>, drawn: Bytes)
    requires Lawful(p) && |drawn| == IvLength && pw != "" && !RefusedName(dbName)
    ensures var c := Create(p, s, dbName, pw, image, drawn, [], true);
            && c.table == [c.table[0]]
            && var o := Open(p, other, dbName, pw, image, Some(c.table));
            && o.status == Done && o.session.entries == [TestEntry] && o.session.iv.AsBuffer() == drawn
  {
    var c := Create(p, s, dbName, pw, image, drawn, [], true);
    LoadSealed(p, [TestEntry], pw + ImageHash(p, image), c.table[0].iv, c.table[0].data);
    Hex.DecodeEncode(drawn);
  }

  /** A missing image does not stop create or open: both use the fixed
      message as the fingerprint, so a vault created with any missing image
      path opens with any other missing path and the same password. */
  lemma MissingImageStillOpens(p: Primitives, s: Session, other: Session, dbName: string, pw: string, drawn: Bytes)
    requires Lawful(p) && |drawn| == IvLength && pw != "" && !RefusedName(dbName)
    ensures var c := Create(p, s, dbName, pw, None, drawn, [], true);
            && c.session.imageHash == MissingImageMessage
            && Open(p, other, dbName, pw, None, Some(c.table)).status == Done
  {
    CreateThenOpen(p, s, other, dbName, pw, None, drawn);
  }

  /** Creating a vault under the name of a database whose table already
      holds a record appends after it, so the next open still reads the
      old record, not the one just created. */
  lemma RecreateKeepsOldRecordFirst(p: Primitives, s: Session, other: Session, dbName: string, pw: string,
                                    image: Option<Bytes>, drawn: Bytes, table: seq<Record>, pw2: string,
                                    image2: Option<Bytes>)
    requires Lawful(p) && |drawn| == IvLength && pw != "" && !RefusedName(dbName) && |table| > 0
    ensures var c := Create(p, s, dbName, pw, image, drawn, table, true);
            && c.table[0] == table[0]
            && Open(p, other, dbName, pw2, image2, Some(c.table)) == Open(p, other, dbName, pw2, image2, Some(table))
  {
    var c := Create(p, s, dbName, pw, image, drawn, table, true);
    OpenReadsFirstRow(p, other, dbName, pw2, image2, c.table);
    OpenReadsFirstRow(p, other, dbName, pw2, image2, table);
  }

  /** The stored IV never changes: a session opened from a table takes the
      first row's IV text as it is, and saving it writes that very text back
      as the only row. */
  lemma SaveKeepsStoredIv(p: Primitives, s: Session, dbName: string, pw: string, image: Option<Bytes>,
                          rows: seq<Record>)
    requires Lawful(p) && |rows| > 0 && |Hex.Decode(rows[0].iv)| == IvLength
    ensures var o := Open(p, s, dbName, pw, image, Some(rows)).session;
            && o.iv.AsHex() == rows[0].iv
            && var w := Save(p, o, rows);
            && w.status == Done && |w.table| == 1 && w.table[0].iv == rows[0].iv
  {
  }

  /** `addEntry`: appends one entry at the end, keeping the others in order,
      then calls `saveSqlDatabase` once. */
  function AddEntry(p: Primitives, s: Session, title: string, username: string, choice: PasswordChoice,
                    table: seq<Record>): (r: TableStep)
    requires Lawful(p) && WellFormed(choice)
    ensures |r.session.entries| == |s.entries| + 1
    ensures r.session.entries[..|s.entries|] == s.entries
    ensures r.session.entries[|s.entries|] == Entry(title, username, NewPassword(choice))
    ensures SameButEntries(r.session, s)
    ensures r == Save(p, r.session, table)
  {
    Save(p, s.(entries := s.entries + [Entry(title, username, NewPassword(choice))]), table)
  }

  /** `deleteEntry`: a no-op on an empty list; otherwise removes exactly the
      chosen 0-based index, keeps the others in order, and saves once. */
  function DeleteEntry(p: Primitives, s: Session, index: nat, table: seq<Record>): (r: TableStep)
    requires Lawful(p)
    requires |s.entries| == 0 || index < |s.entries|
    ensures |s.entries| == 0 ==> r == TableStep(s, Done, table)
    ensures |s.entries| > 0 ==> r.session.entries == RemoveAt(s.entries, index)
    ensures |s.entries| > 0 ==> r == Save(p, r.session, table)
    ensures SameButEntries(r.session, s)
  {
    if |s.entries| == 0 then TableStep(s, Done, table)
    else Save(p, s.(entries := RemoveAt(s.entries, index)), table)
  }

  /** One vault menu edit against the table. */
  function Apply(p: Primitives, s: Session, edit: Edit, table: seq<Record>): (r: TableStep)
    requires Lawful(p) && Applicable(s, edit)
    ensures SameButEntries(r.session, s)
    ensures r.table == table || r == Save(p, r.session, table)
  {
    match edit
    case Add(title, username, choice) => AddEntry(p, s, title, username, choice, table)
    case Delete(index) => DeleteEntry(p, s, index, table)
  }

  /** The menu prompts only offer what `Applicable` allows at each point. */
  predicate Runnable(p: Primitives, s: Session, edits: seq<Edit>, table: seq<Record>)
    requires Lawful(p)
    decreases |edits|
  {
    || |edits| == 0
    || (&& Applicable(s, edits[0])
        && var step := Apply(p, s, edits[0], table);
        && Runnable(p, step.session, edits[1..], step.table))
  }

  /** A sequence of edits: the final session and the table afterwards. The
      stored IV never changes across saves: the run keeps the session's IV,
      password, database and fingerprint, and leaves the table either as it
      was or holding one row with the session's IV text. */
  function Run(p: Primitives, s: Session, edits: seq<Edit>, table: seq<Record>): (r: (Session, seq<Record>))
    requires Lawful(p) && Runnable(p, s, edits, table)
    ensures SameButEntries(r.0, s)
    ensures r.1 == table || (|r.1| == 1 && r.1[0].iv == s.iv.AsHex())
    decreases |edits|
  {
    if |edits| == 0 then (s, table)
    else
      var step := Apply(p, s, edits[0], table);
      Run(p, step.session, edits[1..], step.table)
  }

  /** This program's `openDatabase` reads a vault file like the other
      program's, but with password plus fingerprint as key material. */
  function OpenFile(p: Primitives, s: Session, dbName: string, pw: string, image: Option<Bytes>, text: string): (r: Step)
    requires Lawful(p)
    ensures r.written == None && r.session.masterPassword == pw && r.session.imageHash == ImageHash(p, image)
    ensures r.status.Failed? ==> r.session.entries == []
  {
    var h := ImageHash(p, image);
    CsvApp.ReadVault(p, Reset(s).(masterPassword := pw, imageHash := h), dbName, pw + h, text)
  }

  /** This program's `saveDatabase` is the other program's, keyed by the
      master password alone, while its `openDatabase` uses password plus
      fingerprint. The material a saved file decrypts under is never the
      material open tries: the file-based paths of this program disagree
      on the key, so no round trip is claimed for them. */
  lemma FileKeysDisagree(p: Primitives, s: Session, other: Session, dbName: string, image: Option<Bytes>)
    requires Lawful(p) && IvUsable(s.iv)
    ensures var w := CsvApp.Save(p, s).written.value;
            && Decrypt(p, Some(w.data), s.masterPassword, w.iv) == Success(p.stringify(s.entries))
            && var material := s.masterPassword + ImageHash(p, image);
            && material != s.masterPassword
            && var o := OpenFile(p, other, dbName, s.masterPassword, image, Format(w));
            && (o.status.Done? <==> Load(p, Some(w.data), material, w.iv).Success?)
  {
    var w := CsvApp.Save(p, s).written.value;
    ImageHashNonEmpty(p, image);
    var h := ImageHash(p, image);
    assert |s.masterPassword + h| > |s.masterPassword|;
    HexIsCellSafe(w.data);
    ParseFormat(w);
  }
}

=== FILE: text.dfy ===
/** The two string operations the vault file reader relies on:
    JavaScript's `String.prototype.trim` and `String.prototype.split` with a
    one-character separator. */
module Text {

  /** ECMAScript WhiteSpace and LineTerminator code points, which `trim` removes. */
  predicate IsSpace(c: char) {
    || c == '\t' || c == '\n' || c == '\U{000B}' || c == '\U{000C}' || c == '\r'
    || c == ' ' || c == '\U{00A0}' || c == '\U{1680}'
    || ('\U{2000}' <= c <= '\U{200A}')
    || c == '\U{2028}' || c == '\U{2029}' || c == '\U{202F}' || c == '\U{205F}'
    || c == '\U{3000}' || c == '\U{FEFF}'
  }

  /** Drops leading white space: the result is a suffix of `s` that does not
      start with white space, and everything dropped is white space. */
  function TrimStart(s: string): (r: string)
    ensures |r| <= |s| && r == s[|s| - |r|..]
    ensures |r| == 0 || !IsSpace(r[0])
    ensures forall i :: 0 <= i < |s| - |r| ==> IsSpace(s[i])
  {
    if |s| > 0 && IsSpace(s[0]) then TrimStart(s[1..]) else s
  }

  /** Drops trailing white space: the result is a prefix of `s` that does not
      end with white space, and everything dropped is white space. */
  function TrimEnd(s: string): (r: string)
    ensures |r| <= |s| && r == s[..|r|]
    ensures |r| == 0 || !IsSpace(r[|r| - 1])
    ensures forall i :: |r| <= i < |s| ==> IsSpace(s[i])
  {
    if |s| > 0 && IsSpace(s[|s| - 1]) then TrimEnd(s[..|s| - 1]) else s
  }

  /** `s.trim()`: neither end of the result is white space, and the result
      is empty exactly when `s` is all white space. */
  function Trim(s: string): (r: string)
    ensures |r| <= |s|
    ensures |r| == 0 || (!IsSpace(r[0]) && !IsSpace(r[|r| - 1]))
    ensures |r| == 0 <==> forall i :: 0 <= i < |s| ==> IsSpace(s[i])
  {
    var t := TrimStart(s);
    var r := TrimEnd(t);
    assert |r| == 0 ==> |t| == 0;
    assert |r| > 0 ==> r[0] == t[0];
    r
  }

  /** `s.length`: JavaScript counts UTF-16 code units, so a character
      outside the Basic Multilingual Plane counts twice. */
  function Utf16Length(s: string): (n: nat)
    ensures |s| <= n <= 2 * |s|
    ensures (forall i :: 0 <= i < |s| ==> s[i] as int < 0x1_0000) ==> n == |s|
  {
    if |s| == 0 then 0
    else (if s[0] as int < 0x1_0000 then 1 else 2) + Utf16Length(s[1..])
  }

  /** The length of a concatenation is the sum of the lengths. */
  lemma {:induction false} Utf16LengthConcat(a: string, b: string)
    ensures Utf16Length(a + b) == Utf16Length(a) + Utf16Length(b)
    decreases |a|
  {
    if |a| == 0 {
      assert a + b == b;
    } else {
      assert (a + b)[1..] == a[1..] + b;
      Utf16LengthConcat(a[1..], b);
    }
  }

  /** One character counts one code unit inside the Basic Multilingual
      Plane and two (a surrogate pair) outside it. */
  lemma Utf16LengthChar(c: char)
    ensures Utf16Length([c]) == if c as int < 0x1_0000 then 1 else 2
  {
  }

  /** Two hex digits and an emoji have length 4, not 3. */
  lemma AstralCountsTwice()
    ensures Utf16Length("ab\U{1F600}") == 4
    ensures |"ab\U{1F600}"| == 3
  {
  }

  /** `trim` keeps a stretch of `s`: the infix starting where the leading
      white space ends. */
  lemma {:induction false} TrimIsInfix(s: string)
    ensures var a, r := |s| - |TrimStart(s)|, Trim(s);
            a + |r| <= |s| && r == s[a..a + |r|]
  {
  }

  /** Everything `trim` drops, before or after that stretch, is white space. */
  lemma {:induction false} TrimDropsOnlySpace(s: string)
    ensures var a, r := |s| - |TrimStart(s)|, Trim(s);
            && (forall i :: 0 <= i < a ==> IsSpace(s[i]))
            && (forall i :: a + |r| <= i < |s| ==> IsSpace(s[i]))
  {
  }

  /** Text that neither starts nor ends with white space is left as it is. */
  lemma TrimKeeps(s: string)
    requires |s| > 0 && !IsSpace(s[0]) && !IsSpace(s[|s| - 1])
    ensures Trim(s) == s
  {
  }

  /** `parts.join(sep)`. */
  function Join(parts: seq<string>, sep: char): string {
    if |parts| == 0 then ""
    else if |parts| == 1 then parts[0]
    else parts[0] + [sep] + Join(parts[1..], sep)
  }

  /** `s.split(sep)`: the pieces between separators, always at least one
      (the empty string splits into one empty piece), none holding `sep`. */
  function Split(s: string, sep: char): (parts: seq<string>)
    ensures |parts| >= 1
    ensures forall i :: 0 <= i < |parts| ==> sep !in parts[i]
    ensures forall i, c :: 0 <= i < |parts| && c in parts[i] ==> c in s
    decreases |s|
  {
    if |s| == 0 then [""]
    else
      var rest := Split(s[1..], sep);
      assert forall c :: c in s[1..] ==> c in s;
      if s[0] == sep then [""] + rest
      else [[s[0]] + rest[0]] + rest[1..]
  }

  /** Joining the pieces back with the separator gives the original text. */
  lemma {:induction false} JoinSplit(s: string, sep: char)
    ensures Join(Split(s, sep), sep) == s
    decreases |s|
  {
    if |s| > 0 {
      var rest := Split(s[1..], sep);
      JoinSplit(s[1..], sep);
      assert Join(rest, sep) == s[1..];
      if s[0] == sep {
        assert Split(s, sep) == [""] + rest;
        assert ([""] + rest)[1..] == rest;
      } else {
        var parts := Split(s, sep);
        assert parts == [[s[0]] + rest[0]] + rest[1..];
        if |rest| == 1 {
          assert parts == [[s[0]] + rest[0]];
        } else {
          assert parts[1..] == rest[1..];
          assert Join(rest, sep) == rest[0] + [sep] + Join(rest[1..], sep);
        }
      }
    }
  }

  /** Text without the separator is one piece. */
  lemma {:induction false} SplitWithoutSeparator(s: string, sep: char)
    requires sep !in s
    ensures Split(s, sep) == [s]
    decreases |s|
  {
    if |s| > 0 {
      SplitWithoutSeparator(s[1..], sep);
      assert [s[0]] + s[1..] == s;
    }
  }

  /** A separator after a separator-free head cuts exactly there. */
  lemma {:induction false} SplitAtFirst(a: string, sep: char, b: string)
    requires sep !in a
    ensures Split(a + [sep] + b, sep) == [a] + Split(b, sep)
    decreases |a|
  {
    if |a| == 0 {
      assert a + [sep] + b == [sep] + b;
      assert ([sep] + b)[1..] == b;
    } else {
      var s := a + [sep] + b;
      assert s[0] == a[0];
      assert s[1..] == a[1..] + [sep] + b;
      SplitAtFirst(a[1..], sep, b);
      assert [a[0]] + a[1..] == a;
    }
  }

  /** The text splits into two or more pieces exactly when it holds the separator. */
  lemma SplitMany(s: string, sep: char)
    ensures |Split(s, sep)| >= 2 <==> sep in s
  {
    if sep in s {
      var i :| 0 <= i < |s| && s[i] == sep;
      JoinSplit(s, sep);
    } else {
      SplitWithoutSeparator(s, sep);
    }
  }
}

=== FILE: vault.dfy ===
/** The state both programs keep in module-level variables, made explicit. */
module Vault {
  import opened Results
  import opened Entries
  import opened Cipher
  import opened Records

  /** `masterPassword`, `currentIV`, `currentDB`, `entries` and `imageHash`. */
  datatype Session = Session(
    masterPassword: string,
    iv: IvValue,
    db: string,
    entries: seq<Entry>,
    imageHash: string)

  datatype Status = Done | Failed(error: Error)

  /** The outcome of one transition: the new session, whether it succeeded,
      and the record it wrote to storage, if it wrote one. */
  datatype Step = Step(session: Session, status: Status, written: Option<Record>)

  /** The assignments `createDatabase` and `openDatabase` start with: the
      session forgets its password, IV, database and entries, and keeps the
      image hash. */
  function Reset(s: Session): (r: Session)
    ensures r.masterPassword == "" && r.db == "" && r.entries == []
    ensures r.iv.AsHex() == "" && |r.iv.AsBuffer()| == 0
    ensures r.imageHash == s.imageHash
  {
    s.(masterPassword := "", iv := IvString(""), db := "", entries := [])
  }

  /** The session fields other than the entry list agree. */
  predicate SameButEntries(a: Session, b: Session) {
    a.masterPassword == b.masterPassword && a.iv == b.iv && a.db == b.db && a.imageHash == b.imageHash
  }

  /** An IV that can be saved: it reads as 16 bytes, and its hex text can
      be stored in a file field and read back unchanged. */
  predicate IvUsable(iv: IvValue) {
    |iv.AsBuffer()| == IvLength && CellSafe(iv.AsHex())
  }

  /** A freshly drawn IV is always usable, and so is an IV read back as the
      hex text of a usable one. */
  lemma IvUsableCases(iv: IvValue)
    ensures iv.IvBuffer? && |iv.bytes| == IvLength ==> IvUsable(iv)
    ensures IvUsable(iv) ==> IvUsable(IvString(iv.AsHex()))
  {
    IvHexReadsBack(iv);
    if iv.IvBuffer? {
      HexIsCellSafe(iv.AsHex());
    }
  }

  /** An edit the vault menu offers once a vault is open. */
  datatype Edit = Add(title: string, username: string, choice: PasswordChoice) | Delete(index: nat)

  /** The delete menu only offers indices of existing entries. */
  predicate Applicable(s: Session, edit: Edit) {
    match edit
    case Add(_, _, choice) => WellFormed(choice)
    case Delete(index) => |s.entries| == 0 || index < |s.entries|
  }
}

=== FILE: witness.dfy ===
/** The laws assumed of the primitives can all hold at once: a toy
    instance (a constant digest, a cipher that spells each character as
    three bytes, and a serializer that tags every character) meets them.
    So no property proved under `Lawful` holds merely because its
    assumption is impossible. */
module Witness {
  import opened Results
  import opened Entries
  import opened Cipher
  import Hex

  function ZeroDigest(): (d: Bytes)
    ensures |d| == KeyLength
  {
    seq(KeyLength, _ => 0)
  }

  predicate IsScalar(x: int) {
    (0 <= x < 0xD800) || (0xE000 <= x < 0x11_0000)
  }

  /** Each character as three bytes, most significant first. */
  function Spell(m: string): (b: Bytes)
    ensures |b| == 3 * |m|
  {
    if |m| == 0 then []
    else
      var x := m[0] as int;
      [x / 65536, (x / 256) % 256, x % 256] + Spell(m[1..])
  }

  function Unspell(b: Bytes): Option<string>
    decreases |b|
  {
    if |b| == 0 then Some("")
    else if |b| < 3 then None
    else
      var x := (b[0] as int) * 65536 + (b[1] as int) * 256 + b[2] as int;
      if !IsScalar(x) then None
      else match Unspell(b[3..])
        case None => None
        case Some(rest) => Some([x as char] + rest)
  }

  lemma {:induction false} UnspellSpell(m: string)
    ensures Unspell(Spell(m)) == Some(m)
    decreases |m|
  {
    if |m| > 0 {
      var x := m[0] as int;
      var b := Spell(m);
      assert b[..3] == [x / 65536, (x / 256) % 256, x % 256];
      assert b[3..] == Spell(m[1..]);
      assert (b[0] as int) * 65536 + (b[1] as int) * 256 + b[2] as int == x;
      UnspellSpell(m[1..]);
      assert [m[0]] + m[1..] == m;
    }
  }

  /** Every character is preceded by 'a'; the field ends with 'b'. */
  function Tag(s: string): string {
    if |s| == 0 then "b" else ['a', s[0]] + Tag(s[1..])
  }

  /** Reads one tagged field off the front of `t`. */
  function Untag(t: string): (r: Option<(string, string)>)
    ensures r.Some? ==> |r.value.1| < |t|
    decreases |t|
  {
    if |t| == 0 then None
    else if t[0] == 'b' then Some(("", t[1..]))
    else if t[0] == 'a' && |t| >= 2 then
      match Untag(t[2..])
      case None => None
      case Some(r) => Some(([t[1]] + r.0, r.1))
    else None
  }

  lemma {:induction false} UntagTag(s: string, rest: string)
    ensures Untag(Tag(s) + rest) == Some((s, rest))
    decreases |s|
  {
    if |s| == 0 {
      assert (Tag(s) + rest)[1..] == rest;
    } else {
      var t := Tag(s) + rest;
      assert t == ['a', s[0]] + (Tag(s[1..]) + rest);
      assert t[2..] == Tag(s[1..]) + rest;
      UntagTag(s[1..], rest);
      assert [s[0]] + s[1..] == s;
    }
  }

  function TagEntry(e: Entry): string {
    Tag(e.title) + Tag(e.username) + Tag(e.password)
  }

  /** Reads the three tagged fields of one entry. */
  function ReadEntry(t: string): (r: Option<(Entry, string)>)
    ensures r.Some? ==> |r.value.1| < |t|
  {
    match Untag(t)
    case None => None
    case Some(f1) =>
      match Untag(f1.1)
      case None => None
      case Some(f2) =>
        match Untag(f2.1)
        case None => None
        case Some(f3) => Some((Entry(f1.0, f2.0, f3.0), f3.1))
  }

  lemma ReadTagEntry(e: Entry, rest: string)
    ensures ReadEntry(TagEntry(e) + rest) == Some((e, rest))
  {
    var t3 := Tag(e.password) + rest;
    var t2 := Tag(e.username) + t3;
    assert TagEntry(e) + rest == Tag(e.title) + t2;
    UntagTag(e.title, t2);
    UntagTag(e.username, t3);
    UntagTag(e.password, rest);
  }

  function Serialize(es: seq<Entry>): string {
    if |es| == 0 then "" else TagEntry(es[0]) + Serialize(es[1..])
  }

  function Deserialize(t: string): Option<seq<Entry>>
    decreases |t|
  {
    if |t| == 0 then Some([])
    else match ReadEntry(t)
      case None => None
      case Some(first) =>
        match Deserialize(first.1)
        case None => None
        case Some(rest) => Some([first.0] + rest)
  }

  lemma {:induction false} DeserializeSerialize(es: seq<Entry>)
    ensures Deserialize(Serialize(es)) == Some(es)
    decreases |es|
  {
    if |es| > 0 {
      assert |Serialize(es)| > 0 by {
        assert |TagEntry(es[0])| > 0;
      }
      ReadTagEntry(es[0], Serialize(es[1..]));
      DeserializeSerialize(es[1..]);
      assert [es[0]] + es[1..] == es;
    }
  }

  function Toy(): Primitives {
    Primitives(
      _ => ZeroDigest(),
      _ => ZeroDigest(),
      (key, iv, m) => Spell(m),
      (key, iv, b) => Unspell(b),
      Serialize,
      Deserialize)
  }

  lemma LawfulSatisfiable()
    ensures exists p :: Lawful(p)
  {
    var p := Toy();
    forall key, iv, m | |key| == KeyLength && |iv| == IvLength
      ensures p.decipher(key, iv, p.encipher(key, iv, m)) == Some(m)
    {
      UnspellSpell(m);
    }
    forall es ensures p.parse(p.stringify(es)) == Some(es) {
      DeserializeSerialize(es);
    }
    assert Lawful(p);
  }
}
